=== FILE: README.md ===
# Content assistant: verified model of the wizard, the age selector and the advisor chat

The application is a bilingual (Persian/English) wizard that collects a
marketing profile, sends it to an external text-generation service and shows
the returned Instagram content plan, next to a small advisor chat. This
project models, as pure state transitions, the three pieces of it that hold
logic of their own:

- **The age-range selector** (`AgeSlider`): a controlled two-handle slider
  over the whole years 13..65. A pointer position is turned into a clamped
  track fraction and rounded (JavaScript `Math.round`, i.e. `floor(y + 1/2)`)
  to an age. The moving handle is stopped one year short of the stationary
  one. The drag state is `Idle`, `Dragging(LowHandle)` or
  `Dragging(HighHandle)`. Track geometry is exact `real` arithmetic, and a
  measured track has a positive width.
- **The wizard** (`Wizard`, with the form and plan shapes in
  `ContentTypes`): the step counter 0..9, the form, the generated plan, the
  loading flag, the result tab, and the selector's drag state while it is
  mounted on the audience step. `Dispatch` applies one user or network action
  as the screen lets it through. A control that is not drawn or is disabled
  does nothing, and leaving the audience step forgets the drag. The
  asynchronous generate call is split into a start and two outcome events.
- **Hashtag display and copy text** (`Hashtags`): `#` followed by the tag
  with its first `#` removed, and the tags joined with single spaces.
- **The advisor chat** (`ChatBot`): an append-only message log, an input
  line, a loading flag and the panel's visibility. The network call is split
  into the send and two outcome events.

`Text` models JavaScript's `trim`, used by both blank-input guards.
`Optional` is the nullable-value wrapper.

Proved, among others:

- The selector invariant `13 <= lo < hi <= 65` survives every event sequence.
- Moves while idle report nothing, and a release anywhere ends the drag.
- The pointer-to-age map is monotone and inverts the handle-drawing map.
- The wizard invariant holds in every reachable state. It says the step
  stays in 0..9 and the result step always has a plan. It also says a
  request is pending only before the result step, the age range is valid,
  and a drag happens only on the audience step.
- The chat log only grows and alternates question/answer. Loading holds
  exactly when the last question is unanswered.
- Splitting the copied hashtag text at its spaces gives back the tags,
  when there is at least one tag and no tag contains a space.

## Model

| member | source | states |
|---|---|---|
| Text.TrimStart | App.tsx:299 | removes exactly the leading trimmable prefix; the rest is a suffix of the input starting with a non-trimmable character |
| Text.TrimEnd | App.tsx:299 | removes exactly the trailing trimmable suffix; the rest is a prefix of the input ending with a non-trimmable character |
| Text.Trim | App.tsx:299 | `trim()` yields a slice of the input with only trimmable characters cut off on either side, and neither end of it is trimmable |
| Text.TrimEmptyIffBlank | components/ChatBot.tsx:33 | `!s.trim()` holds exactly when every character of `s` is whitespace or a line terminator |
| AgeSlider.TrackFraction | App.tsx:61-62 | the pointer's track fraction lies in [0,1], is 0 left of the track, 1 right of it, and exact in between |
| AgeSlider.JsRound | App.tsx:63 | `Math.round` gives the integer within half a unit, halves rounding up |
| AgeSlider.PointerToAge | App.tsx:61-63 | every pointer position maps to the age in 13..65 nearest to `13 + 52 * fraction` (halves up); positions left of the track give 13, right of it give 65 |
| AgeSlider.Percent | App.tsx:92 | `getPos` places ages 13..65 within 0..100 percent, proportionally to `v - 13` |
| AgeSlider.HandleX | App.tsx:103-115 | a handle is centred at `getPos(v)` percent of the track from its left edge: inside the track for every age in 13..65, at the left edge for 13 and the right edge for 65 |
| AgeSlider.PointerAtHandleReadsItsAge | App.tsx:61-63 | a pointer exactly where age v's handle is drawn reads back v, for every v in 13..65 |
| AgeSlider.PointerToAgeMonotone | App.tsx:61-63 | moving the pointer right never lowers the age read |
| AgeSlider.DragTo | App.tsx:65-68 | the low handle gives (min(raw, hi-1), hi) and the high handle gives (lo, max(raw, lo+1)); the stationary end is unchanged, and a valid range stays valid |
| AgeSlider.React | App.tsx:59-113 | a press on a handle starts dragging it, a release from anywhere resets to idle, a move reports a range exactly when a handle is held, and a reported range is valid when the current one is |
| AgeSlider.Step | App.tsx:313-318 | the consumer stores every reported range: a move while a handle is held stores `DragTo` of the pointer's age, every other event keeps the value; a press starts dragging that handle and a release returns to idle; the range stays valid |
| AgeSlider.Run | App.tsx:54-68 | over any event sequence a valid range stays valid: the handles never meet or cross and stay within 13..65 |
| AgeSlider.IdleIgnoresAllButPress | App.tsx:72-89 | while idle and with no press, no event sequence changes the drag state or the range |
| AgeSlider.ReleaseEndsTheDrag | App.tsx:75-81 | after a release, moves change nothing until a handle is pressed again |
| AgeSlider.Scenarios | App.tsx:62-68 | worked examples: dragging low to 50 against (18,45) gives (44,45); high to 10 gives (18,19); full range stays (13,65); far left gives lo = 13 |
| ContentTypes.Edit | App.tsx:294 | a spread-and-overwrite form update: the edited field reads back the new value, every other field its old one |
| ContentTypes.EditLaws | App.tsx:272 | writing a field's current value back is a no-op, a second write to the same field overrides the first, and writes to different fields commute |
| Wizard.Next | App.tsx:167 | the step increases by one and nothing else changes |
| Wizard.Prev | App.tsx:168 | the step decreases by one and nothing else changes |
| Wizard.PrevUndoesNext | App.tsx:167-168 | back after next, and next after back, restore the state |
| Wizard.Fill | App.tsx:325 | a text input writes its field only; step, plan and everything else are kept |
| Wizard.Choose | App.tsx:272 | an option button (page type, effect, persona, tone, frequency) writes its field only and advances one step |
| Wizard.StartGenerate | App.tsx:170-171 | starting generation raises the loading flag and changes nothing else |
| Wizard.GenerateSucceeded | App.tsx:170-181 | success stores the plan, goes to step 9 and clears loading; the form is kept |
| Wizard.GenerateFailed | App.tsx:176-180 | failure clears loading and leaves step, plan and form unchanged |
| Wizard.Restart | App.tsx:651 | restart (and the header logo at line 667) sets step 0 and keeps the form and the plan |
| Wizard.SelectTab | App.tsx:488 | a tab click changes the active tab only |
| Wizard.EditCaption | App.tsx:235-240 | no-op without a plan or for an index outside the captions; otherwise the caption count is kept, only that caption's text changes, and every other caption and plan field is unchanged |
| Wizard.Slide | App.tsx:313-318 | a selector event on the audience step moves the drag state and writes the reported range into the form exactly as `AgeSlider.Step` does (so the idle and release lemmas apply to the app), keeps the age range valid and changes no other form field |
| Wizard.Dispatch | App.tsx:242-701 | with the screen's guards, every action keeps the invariant and the step stays, moves by one, or jumps to 0 or 9; back moves one step back exactly when 0 < step <= 8; generate while loading changes nothing and otherwise on step 8 starts the request; next on the topic step reaches the audience step exactly when the topic is not blank |
| Wizard.BlankTopicBlocksNext | App.tsx:298-300 | from the topic step with a blank topic, no action reaches the audience step |
| Wizard.Run | App.tsx:129-181 | any action sequence from a valid state ends in a valid state |
| Wizard.ReachableStatesAreValid | App.tsx:133-147 | every state reachable from the initial one satisfies the invariant; in particular the step is never negative |
| Hashtags.RemoveFirst | App.tsx:597 | `replace('#', '')` deletes exactly the first `#`, so reinserting it at its index gives the tag back; other text is untouched |
| Hashtags.DisplayTag | App.tsx:597 | a drawn tag is `#` followed by the tag with its first `#` removed: a tag without `#` gets one prepended, otherwise putting the removed `#` back at its index after the leading one gives the tag; the `#` count is the tag's, or one if it had none |
| Hashtags.DisplayKeepsLeadingHash | App.tsx:597 | a tag that starts with `#` is drawn unchanged, so drawing is idempotent on such tags |
| Hashtags.DisplayAddsMissingHash | App.tsx:597 | a tag without `#` is drawn with one prepended |
| Hashtags.Join | App.tsx:582 | `join(' ')` of no tags is empty and of one tag is that tag |
| Hashtags.SplitJoin | App.tsx:576-582 | the copied text split at spaces gives back the tags when there is at least one and none contains a space |
| ChatBot.Send | components/ChatBot.tsx:32-37 | blank input or a pending request leaves the chat unchanged; otherwise exactly one user message with the input is appended, the input becomes empty and loading becomes true |
| ChatBot.Replied | components/ChatBot.tsx:39-45 | an answer appends exactly one AI message with its text and clears loading |
| ChatBot.Failed | components/ChatBot.tsx:41-45 | a failure appends exactly one AI message reading "Error connecting to AI" and clears loading |
| ChatBot.SetInput | components/ChatBot.tsx:100 | typing changes the input only |
| ChatBot.SetOpen | components/ChatBot.tsx:59 | the launcher and close button change the panel's visibility only |
| ChatBot.Dispatch | components/ChatBot.tsx:32-46 | every event keeps the earlier log as a prefix, adds at most one message, and keeps the invariant |
| ChatBot.Run | components/ChatBot.tsx:36-42 | over any event sequence messages are only appended (never removed, reordered or edited), at most one per event, and the invariant holds |
| ChatBot.ReachableChatsAreValid | components/ChatBot.tsx:14-17 | from the empty closed chat, every reachable log alternates question and answer, starts with a question, holds no blank question, and loading holds exactly when the last question is unanswered |
| ChatBot.PanelTogglesOnlyVisibility | components/ChatBot.tsx:117 | opening and closing the panel leave the log, the input and the loading flag untouched |

## Left out

- The external generation and advisor services are not modelled. Their
  results enter as events: a plan or an error for generation, an answer or a
  failure for the chat. What the request sends (the form and the language)
  is not modelled.
- An outcome event is only delivered while its request is pending (the
  loading flag is set), and `Dispatch` ignores it otherwise. The interface
  lets only one request be outstanding, so this changes no reachable
  behaviour.
- The `alert` on a failed generation is not modelled. Neither are the
  clipboard and `navigator.share` calls, the `copiedId` badge and its
  2-second timer, the document `dir`/`lang` attributes and the `dark` class.
- The language, colour-theme and light/dark mode are not modelled. They
  only choose labels and styles.
- Registering and removing the window listeners is not modelled. Only its
  effect is: moves and releases are acted on as if listened to at all times,
  and moves do nothing while idle.
- AgeSlider.PointerToAge: a zero-width track is excluded by the `Track` type.
  In JavaScript it would divide by zero and report `NaN` or an end value.
  `getBoundingClientRect` widths are never negative.
- AgeSlider.React: the null check on the track's element reference is not
  modelled. The reference is always attached while the control is on screen.
- AgeSlider.React: the stale `value` a React callback may capture between
  renders is not modelled. Every move sample sees the current range.
- Mouse and touch events are one event kind. A touch move uses the first
  touch point's x-coordinate, and multi-touch is out of scope.
- The step area's `pointer-events-none` while loading (App.tsx:703) is
  modelled only for the selector's handles, which react to pointer presses
  alone. The header logo, the back button and the chat lie outside that
  area and are not dimmed. Buttons inside it can still be activated from the
  keyboard, so they are not gated either. The generate button is explicitly
  disabled while loading.
- The option values offered on the effect and persona steps are free
  strings here rather than the fixed option lists. The lists are
  translation tables with no behaviour.
- The filled segment between the handles and the wizard's progress bar are
  not modelled; only the horizontal centre of each handle is (`HandleX`).
- Track geometry and rounding use exact `real` arithmetic instead of IEEE
  doubles. The two can disagree where the exact value lies within the
  doubles' rounding error of a half-unit boundary, on either side.
- Only `mouseup` and `touchend` end a drag in the code. A `touchcancel` or
  a lost pointer capture does not, and the model follows the code: it has
  no event for them.

=== FILE: age_slider.dfy ===
/** The audience age-range selector: a controlled two-handle slider over the
    whole years 13..65. The consumer owns the range; the control owns only the
    drag state and reports one new range per pointer move while a handle is
    held. */
module AgeSlider {
  import opened Optional

  const MinAge: int := 13
  const MaxAge: int := 65

  /** `[lo, hi]`, the value pair the consumer stores. */
  datatype Range = Range(lo: int, hi: int)

  /** Both handles inside the bounds and strictly apart. */
  predicate ValidRange(r: Range) {
    MinAge <= r.lo < r.hi <= MaxAge
  }

  datatype Handle = LowHandle | HighHandle

  /** The control's drag state: `null`, `'min'` or `'max'`. */
  datatype Drag = Idle | Dragging(handle: Handle)

  /** The track's bounding box as measured at a move sample; only the
      horizontal extent matters. */
  datatype TrackBox = TrackBox(left: real, width: real)

  /** A laid-out track has a positive width. */
  type Track = t: TrackBox | t.width > 0.0 witness TrackBox(0.0, 1.0)

  /** Pointer input, mouse and touch alike: a press on one of the handles, a
      move to a client x-coordinate (with the track box read at that moment),
      or the end of the press anywhere on the page. */
  datatype PointerEvent = Press(handle: Handle) | Move(x: real, track: Track) | Release

  /** `Math.min(Math.max(f, 0), 1)`. */
  function Clamp01(f: real): (r: real)
    ensures 0.0 <= r <= 1.0
    ensures 0.0 <= f <= 1.0 ==> r == f
    ensures f < 0.0 ==> r == 0.0
    ensures f > 1.0 ==> r == 1.0
  {
    if f < 0.0 then 0.0 else if f > 1.0 then 1.0 else f
  }

  /** Dividing a pointer offset by the track width: exact, not positive for
      offsets left of the track and at least one for offsets past its end. */
  lemma DivideByWidth(d: real, w: real)
    requires w > 0.0
    ensures (d / w) * w == d
    ensures d <= 0.0 ==> d / w <= 0.0
    ensures d >= w ==> d / w >= 1.0
  {
  }

  /** How far along the track the pointer is, clamped to the track's ends. */
  function TrackFraction(track: Track, x: real): (f: real)
    ensures 0.0 <= f <= 1.0
    ensures x <= track.left ==> f == 0.0
    ensures x >= track.left + track.width ==> f == 1.0
    ensures track.left <= x <= track.left + track.width ==> f * track.width == x - track.left
  {
    var raw := (x - track.left) / track.width;
    DivideByWidth(x - track.left, track.width);
    Clamp01(raw)
  }

  /** JavaScript's `Math.round`: the nearest integer, halves rounded up. */
  function JsRound(y: real): (n: int)
    ensures y - 0.5 < n as real <= y + 0.5
  {
    (y + 0.5).Floor
  }

  /** The age a pointer at client x-coordinate `x` points at: the one nearest
      to its fraction of the way from 13 to 65. */
  function PointerToAge(track: Track, x: real): (v: int)
    ensures MinAge <= v <= MaxAge
    ensures x <= track.left ==> v == MinAge
    ensures x >= track.left + track.width ==> v == MaxAge
    ensures var y := MinAge as real + TrackFraction(track, x) * (MaxAge - MinAge) as real;
      y - 0.5 < v as real <= y + 0.5
  {
    var f := TrackFraction(track, x);
    JsRound(MinAge as real + f * (MaxAge - MinAge) as real)
  }

  /** `getPos`: where age `v` is drawn, as a percentage of the track width. */
  function Percent(v: int): (p: real)
    ensures MinAge <= v <= MaxAge ==> 0.0 <= p <= 100.0
    ensures p * (MaxAge - MinAge) as real == (v - MinAge) as real * 100.0
  {
    ((v - MinAge) as real / (MaxAge - MinAge) as real) * 100.0
  }

  /** The client x-coordinate of the centre of age `v`'s handle: `getPos(v)`
      percent of the track width from its left edge, the handle being
      shifted back by half its own width. */
  function HandleX(track: Track, v: int): (x: real)
    ensures MinAge <= v <= MaxAge ==> track.left <= x <= track.left + track.width
    ensures v == MinAge ==> x == track.left
    ensures v == MaxAge ==> x == track.left + track.width
  {
    track.left + track.width * Percent(v) / 100.0
  }

  /** Pressing the pointer exactly where a handle for age `v` is drawn reads
      back `v`: the drawing map and the pointer map are inverse on 13..65. */
  lemma PointerAtHandleReadsItsAge(track: Track, v: int)
    requires MinAge <= v <= MaxAge
    ensures PointerToAge(track, HandleX(track, v)) == v
  {
    var p := Percent(v) / 100.0;
    var x := HandleX(track, v);
    assert 0.0 <= p <= 1.0;
    assert x - track.left == track.width * p;
    assert track.width * p <= track.width * 1.0;
    var f := TrackFraction(track, x);
    assert f * track.width == p * track.width;
    assert f == p;
    assert MinAge as real + f * (MaxAge - MinAge) as real == v as real;
  }

  /** Moving the pointer to the right never lowers the age it points at. */
  lemma PointerToAgeMonotone(track: Track, x1: real, x2: real)
    requires x1 <= x2
    ensures PointerToAge(track, x1) <= PointerToAge(track, x2)
  {
    var r1 := (x1 - track.left) / track.width;
    var r2 := (x2 - track.left) / track.width;
    assert r1 * track.width == x1 - track.left;
    assert r2 * track.width == x2 - track.left;
    assert (r2 - r1) * track.width == x2 - x1;
    assert r1 <= r2;
    var f1 := TrackFraction(track, x1);
    var f2 := TrackFraction(track, x2);
    assert f1 <= f2;
    var y1 := MinAge as real + f1 * (MaxAge - MinAge) as real;
    var y2 := MinAge as real + f2 * (MaxAge - MinAge) as real;
    assert y1 <= y2;
  }

  /** The new range when the `handle` is moved to age `raw`: the moving handle
      follows `raw` but is stopped one year short of the stationary one. */
  function DragTo(handle: Handle, value: Range, raw: int): (r: Range)
    ensures handle == LowHandle ==>
      && r.hi == value.hi
      && r.lo <= raw && r.lo < r.hi
      && (r.lo == raw || r.lo == r.hi - 1)
    ensures handle == HighHandle ==>
      && r.lo == value.lo
      && r.hi >= raw && r.lo < r.hi
      && (r.hi == raw || r.hi == r.lo + 1)
    ensures ValidRange(value) && MinAge <= raw <= MaxAge ==> ValidRange(r)
  {
    match handle
    case LowHandle => Range(if raw < value.hi - 1 then raw else value.hi - 1, value.hi)
    case HighHandle => Range(value.lo, if raw > value.lo + 1 then raw else value.lo + 1)
  }

  /** What the control does with one pointer event: its next drag state and
      the range it reports to the consumer, if any. */
  datatype Reaction = Reaction(drag: Drag, emitted: Option<Range>)

  /** `handleUpdate` together with the press and release handlers. */
  function React(drag: Drag, value: Range, ev: PointerEvent): (r: Reaction)
    ensures ev.Press? ==> r == Reaction(Dragging(ev.handle), None)
    ensures ev.Release? ==> r == Reaction(Idle, None)
    ensures ev.Move? ==> r.drag == drag && (r.emitted.Some? <==> drag.Dragging?)
    ensures ev.Move? && drag.Dragging? ==>
      r.emitted == Some(DragTo(drag.handle, value, PointerToAge(ev.track, ev.x)))
    ensures ValidRange(value) && r.emitted.Some? ==> ValidRange(r.emitted.value)
  {
    match ev
    case Press(h) => Reaction(Dragging(h), None)
    case Release => Reaction(Idle, None)
    case Move(x, track) =>
      match drag
      case Idle => Reaction(Idle, None)
      case Dragging(h) => Reaction(drag, Some(DragTo(h, value, PointerToAge(track, x))))
  }

  /** The control mounted in a consumer that stores every reported range. */
  datatype Slider = Slider(drag: Drag, value: Range)

  /** One event, with the reported range fed back as the new value. */
  function Step(s: Slider, ev: PointerEvent): (r: Slider)
    ensures ev.Move? && s.drag.Dragging? ==>
      r == Slider(s.drag, DragTo(s.drag.handle, s.value, PointerToAge(ev.track, ev.x)))
    ensures !(ev.Move? && s.drag.Dragging?) ==> r.value == s.value
    ensures ev.Press? ==> r.drag == Dragging(ev.handle)
    ensures ev.Release? ==> r.drag == Idle
    ensures ValidRange(s.value) ==> ValidRange(r.value)
    ensures s.drag.Idle? && !ev.Press? ==> r == s
  {
    var re := React(s.drag, s.value, ev);
    Slider(re.drag, re.emitted.GetOr(s.value))
  }

  /** A sequence of events, one `Step` at a time. */
  function Run(s: Slider, evs: seq<PointerEvent>): (r: Slider)
    ensures ValidRange(s.value) ==> ValidRange(r.value)
    decreases |evs|
  {
    if evs == [] then s else Run(Step(s, evs[0]), evs[1..])
  }

  predicate NoPress(evs: seq<PointerEvent>) {
    forall i :: 0 <= i < |evs| ==> !evs[i].Press?
  }

  /** While no handle is held, no event other than a press changes anything:
      moves report nothing and the value stays put. */
  lemma {:induction false} IdleIgnoresAllButPress(s: Slider, evs: seq<PointerEvent>)
    requires s.drag.Idle? && NoPress(evs)
    ensures Run(s, evs) == s
    decreases |evs|
  {
    if evs != [] {
      assert !evs[0].Press?;
      assert NoPress(evs[1..]) by {
        forall i | 0 <= i < |evs[1..]| ensures !evs[1..][i].Press? {
          assert evs[1..][i] == evs[i + 1];
        }
      }
      IdleIgnoresAllButPress(Step(s, evs[0]), evs[1..]);
    }
  }

  /** After a release, wherever it happens, the value no longer changes until
      a handle is pressed again. */
  lemma ReleaseEndsTheDrag(s: Slider, evs: seq<PointerEvent>)
    requires NoPress(evs)
    ensures Run(s, [Release] + evs).value == s.value
  {
    assert ([Release] + evs)[1..] == evs;
    IdleIgnoresAllButPress(Step(s, Release), evs);
  }

  /** The worked examples for bounds 13..65 and a 52-pixel track at x = 0. */
  lemma Scenarios()
    ensures React(Dragging(LowHandle), Range(18, 45), Move(37.0, TrackBox(0.0, 52.0))).emitted
            == Some(Range(44, 45))
    ensures DragTo(HighHandle, Range(18, 45), 10) == Range(18, 19)
    ensures React(Dragging(LowHandle), Range(13, 65), Move(0.0, TrackBox(0.0, 52.0))).emitted
            == Some(Range(13, 65))
    ensures React(Dragging(LowHandle), Range(30, 45), Move(-500.0, TrackBox(0.0, 52.0))).emitted
            == Some(Range(13, 45))
  {
    assert PointerToAge(TrackBox(0.0, 52.0), 37.0) == 50 by {
      assert TrackFraction(TrackBox(0.0, 52.0), 37.0) == 37.0 / 52.0;
    }
  }
}

=== FILE: chat_bot.dfy ===
/** The floating advisor chat: a panel that can be opened and closed, an input
    line, a loading flag and a message log that only ever grows. The question
    goes to an external service; its answer or failure arrives as an event. */
module ChatBot {
  import opened Text

  datatype Role = User | Ai

  datatype Message = Message(role: Role, text: string)

  /** The text logged when the service call fails. */
  const ConnectionError: string := "Error connecting to AI"

  datatype Chat = Chat(isOpen: bool, messages: seq<Message>, input: string, isLoading: bool)

  const Initial: Chat := Chat(false, [], "", false)

  /** The log alternates: it opens with a question and no two neighbouring
      messages have the same role. */
  predicate Alternates(m: seq<Message>) {
    && (|m| > 0 ==> m[0].role == User)
    && (forall i :: 0 < i < |m| ==> m[i].role != m[i - 1].role)
  }

  /** The log ends with a question that has no answer yet. */
  predicate AwaitsAnswer(m: seq<Message>) {
    |m| > 0 && m[|m| - 1].role == User
  }

  /** A logged question is never blank. */
  predicate Asked(m: Message) {
    m.role == User ==> !IsBlank(m.text)
  }

  /** What holds in every reachable state: questions and answers alternate,
      a request is pending exactly when the last question is unanswered, and
      no blank question is ever logged. */
  predicate Inv(c: Chat) {
    && Alternates(c.messages)
    && (c.isLoading <==> AwaitsAnswer(c.messages))
    && (forall i :: 0 <= i < |c.messages| ==> Asked(c.messages[i]))
  }

  /** Whether `handleSend` goes past its guard. */
  predicate CanSend(c: Chat) {
    !IsBlank(c.input) && !c.isLoading
  }

  /** `handleSend` up to the request: a blank input or a pending request
      makes it return; otherwise the input is logged as the user's message,
      the input is cleared and the loading flag goes up. */
  function Send(c: Chat): (r: Chat)
    ensures !CanSend(c) ==> r == c
    ensures CanSend(c) ==>
      && r.messages == c.messages + [Message(User, c.input)]
      && r.input == "" && r.isLoading && r.isOpen == c.isOpen
    ensures Inv(c) ==> Inv(r)
  {
    if IsBlank(c.input) || c.isLoading then c
    else c.(input := "", messages := c.messages + [Message(User, c.input)], isLoading := true)
  }

  /** The service answered: one AI message with the answer, loading ends. */
  function Replied(c: Chat, answer: string): (r: Chat)
    ensures r.messages == c.messages + [Message(Ai, answer)]
    ensures !r.isLoading && r.input == c.input && r.isOpen == c.isOpen
    ensures Inv(c) && c.isLoading ==> Inv(r)
  {
    c.(messages := c.messages + [Message(Ai, answer)], isLoading := false)
  }

  /** The service call failed: one AI message with the fixed error text,
      loading ends. */
  function Failed(c: Chat): (r: Chat)
    ensures r.messages == c.messages + [Message(Ai, ConnectionError)]
    ensures !r.isLoading && r.input == c.input && r.isOpen == c.isOpen
    ensures Inv(c) && c.isLoading ==> Inv(r)
  {
    Replied(c, ConnectionError)
  }

  /** The input line's `onChange`. */
  function SetInput(c: Chat, text: string): (r: Chat)
    ensures r.input == text && r.(input := c.input) == c
  {
    c.(input := text)
  }

  /** The launcher and the close button: only the panel's visibility changes. */
  function SetOpen(c: Chat, open: bool): (r: Chat)
    ensures r.isOpen == open && r.(isOpen := c.isOpen) == c
  {
    c.(isOpen := open)
  }

  datatype ChatEvent =
    | InputChanged(text: string)
    | SendPressed       // the send button or Enter in the input
    | Answer(text: string)
    | RequestFailed
    | LauncherPressed
    | ClosePressed

  /** An event as the panel lets it through: the input and the send button
      exist only while the panel is open, the launcher only while it is
      closed, and an answer or failure arrives only for a pending request.
      Each event appends at most one message and keeps the invariant. */
  function Dispatch(c: Chat, ev: ChatEvent): (r: Chat)
    ensures c.messages <= r.messages && |r.messages| <= |c.messages| + 1
    ensures Inv(c) ==> Inv(r)
  {
    match ev
    case InputChanged(text) => if c.isOpen then SetInput(c, text) else c
    case SendPressed => if c.isOpen then Send(c) else c
    case Answer(text) => if c.isLoading then Replied(c, text) else c
    case RequestFailed => if c.isLoading then Failed(c) else c
    case LauncherPressed => if !c.isOpen then SetOpen(c, true) else c
    case ClosePressed => if c.isOpen then SetOpen(c, false) else c
  }

  /** A sequence of events, one `Dispatch` at a time: earlier messages are
      never removed, reordered or edited, at most one message is added per
      event, and the invariant is kept. */
  function Run(c: Chat, evs: seq<ChatEvent>): (r: Chat)
    ensures c.messages <= r.messages
    ensures |r.messages| <= |c.messages| + |evs|
    ensures Inv(c) ==> Inv(r)
    decreases |evs|
  {
    if evs == [] then c else Run(Dispatch(c, evs[0]), evs[1..])
  }

  /** Every reachable log alternates question and answer, and the chat is
      loading exactly when the last question awaits its answer. */
  lemma ReachableChatsAreValid(evs: seq<ChatEvent>)
    ensures Inv(Run(Initial, evs))
  {
  }

  /** Opening and closing the panel leaves the log, the input and the loading
      flag as they were. */
  lemma PanelTogglesOnlyVisibility(c: Chat)
    ensures Dispatch(c, LauncherPressed).(isOpen := c.isOpen) == c
    ensures Dispatch(c, ClosePressed).(isOpen := c.isOpen) == c
    ensures Dispatch(Dispatch(c, LauncherPressed), ClosePressed) == c.(isOpen := false)
  {
  }
}

=== FILE: content_types.dfy ===
/** The form the wizard fills in and the content plan the generator returns
    (`types.ts`). */
module ContentTypes {
  import opened AgeSlider

  datatype PageType =
    | Shop | Service | Educational | Personal | RealEstate | Food
    | Beauty | Tech | Health | Art | Travel | News

  datatype ContentTone = Formal | Casual | Friendly | Motivational | Sales

  datatype Frequency = ThreePerWeek | FivePerWeek | Daily

  datatype FormData = FormData(
    pageType: PageType,
    topic: string,
    ageRange: Range,
    audienceGender: string,
    audienceConcern: string,
    tone: ContentTone,
    frequency: Frequency,
    effect: string,
    persona: string,
    finalDetails: string)

  datatype CalendarEntry = CalendarEntry(day: string, postType: string, title: string)

  datatype Caption = Caption(title: string, text: string)

  datatype ContentOutput = ContentOutput(
    calendar: seq<CalendarEntry>,
    captions: seq<Caption>,
    hashtags: seq<string>,
    storyIdeas: seq<string>,
    reelIdeas: seq<string>)

  /** One `setFormData({ ...formData, field: value })`: which field is written
      and with what. */
  datatype FieldEdit =
    | PageTypeIs(pageType: PageType)
    | TopicIs(topic: string)
    | AgeRangeIs(ageRange: Range)
    | GenderIs(gender: string)
    | ConcernIs(concern: string)
    | ToneIs(tone: ContentTone)
    | FrequencyIs(frequency: Frequency)
    | EffectIs(effect: string)
    | PersonaIs(persona: string)
    | FinalDetailsIs(details: string)

  /** Two edits write the same field. */
  predicate SameField(e: FieldEdit, e': FieldEdit) {
    match e
    case PageTypeIs(_) => e'.PageTypeIs?
    case TopicIs(_) => e'.TopicIs?
    case AgeRangeIs(_) => e'.AgeRangeIs?
    case GenderIs(_) => e'.GenderIs?
    case ConcernIs(_) => e'.ConcernIs?
    case ToneIs(_) => e'.ToneIs?
    case FrequencyIs(_) => e'.FrequencyIs?
    case EffectIs(_) => e'.EffectIs?
    case PersonaIs(_) => e'.PersonaIs?
    case FinalDetailsIs(_) => e'.FinalDetailsIs?
  }

  /** The edit of `e`'s field that would write the value `f` holds now. */
  function Current(f: FormData, e: FieldEdit): (c: FieldEdit)
    ensures SameField(e, c)
  {
    match e
    case PageTypeIs(_) => PageTypeIs(f.pageType)
    case TopicIs(_) => TopicIs(f.topic)
    case AgeRangeIs(_) => AgeRangeIs(f.ageRange)
    case GenderIs(_) => GenderIs(f.audienceGender)
    case ConcernIs(_) => ConcernIs(f.audienceConcern)
    case ToneIs(_) => ToneIs(f.tone)
    case FrequencyIs(_) => FrequencyIs(f.frequency)
    case EffectIs(_) => EffectIs(f.effect)
    case PersonaIs(_) => PersonaIs(f.persona)
    case FinalDetailsIs(_) => FinalDetailsIs(f.finalDetails)
  }

  /** The form after the spread-and-overwrite update: the edited field reads
      back the new value and every other field reads back what it held. */
  function Edit(f: FormData, e: FieldEdit): (g: FormData)
    ensures Current(g, e) == e
    ensures forall e' :: !SameField(e, e') ==> Current(g, e') == Current(f, e')
  {
    match e
    case PageTypeIs(v) => f.(pageType := v)
    case TopicIs(v) => f.(topic := v)
    case AgeRangeIs(v) => f.(ageRange := v)
    case GenderIs(v) => f.(audienceGender := v)
    case ConcernIs(v) => f.(audienceConcern := v)
    case ToneIs(v) => f.(tone := v)
    case FrequencyIs(v) => f.(frequency := v)
    case EffectIs(v) => f.(effect := v)
    case PersonaIs(v) => f.(persona := v)
    case FinalDetailsIs(v) => f.(finalDetails := v)
  }

  /** Writing a field's current value back leaves the form as it was, and a
      second write to the same field overrides the first. */
  lemma EditLaws(f: FormData, e: FieldEdit, e2: FieldEdit)
    ensures Edit(f, Current(f, e)) == f
    ensures SameField(e, e2) ==> Edit(Edit(f, e), e2) == Edit(f, e2)
    ensures !SameField(e, e2) ==> Edit(Edit(f, e), e2) == Edit(Edit(f, e2), e)
  {
  }
}

=== FILE: hashtags.dfy ===
/** How the result screen shows and copies the generated hashtags: each tag is
    drawn as `#` followed by the tag with its first `#` removed, and the copy
    and share text is the tags joined by single spaces. */
module Hashtags {

  /** The number of times `c` occurs in `s`. */
  function Count(s: string, c: char): (n: nat)
    ensures n <= |s|
    ensures n == 0 <==> c !in s
  {
    if s == [] then 0 else (if s[0] == c then 1 else 0) + Count(s[1..], c)
  }

  lemma {:induction false} CountAppend(s: string, t: string, c: char)
    ensures Count(s + t, c) == Count(s, c) + Count(t, c)
    decreases |s|
  {
    if s != [] {
      assert (s + t)[1..] == s[1..] + t;
      CountAppend(s[1..], t, c);
    } else {
      assert s + t == t;
    }
  }

  /** The position of the first `c` in `s`. */
  function FirstIndex(s: string, c: char): (k: nat)
    requires c in s
    ensures k < |s| && s[k] == c && c !in s[..k]
  {
    if s[0] == c then 0 else
      var k := FirstIndex(s[1..], c);
      assert s[..k + 1] == [s[0]] + s[1..][..k];
      k + 1
  }

  lemma CountWithout(s: string, k: nat, c: char)
    requires k < |s| && s[k] == c
    ensures Count(s[..k] + s[k + 1..], c) == Count(s, c) - 1
  {
    assert s == s[..k] + ([c] + s[k + 1..]);
    CountAppend(s[..k], [c] + s[k + 1..], c);
    CountAppend([c], s[k + 1..], c);
    CountAppend(s[..k], s[k + 1..], c);
  }

  /** JavaScript's `s.replace(c, '')` with a one-character string pattern:
      the first occurrence of `c` is deleted, nothing else. */
  function RemoveFirst(s: string, c: char): (r: string)
    ensures c !in s ==> r == s
    ensures c in s ==>
      |r| == |s| - 1 && r[..FirstIndex(s, c)] + [c] + r[FirstIndex(s, c)..] == s
    ensures Count(r, c) == if c in s then Count(s, c) - 1 else 0
  {
    if c in s then
      var k := FirstIndex(s, c);
      var r := s[..k] + s[k + 1..];
      assert r[..k] == s[..k] && r[k..] == s[k + 1..];
      assert s == s[..k] + [c] + s[k + 1..];
      CountWithout(s, k, c);
      r
    else
      s
  }

  /** The text drawn for one tag: `#{tag.replace('#', '')}`. */
  function DisplayTag(tag: string): (d: string)
    ensures |d| > 0 && d[0] == '#'
    ensures '#' !in tag ==> d == "#" + tag
    ensures '#' in tag ==>
      var k := FirstIndex(tag, '#');
      |d| == |tag| && d[1..k + 1] + "#" + d[k + 1..] == tag
    ensures Count(d, '#') == if '#' in tag then Count(tag, '#') else 1
  {
    var rest := RemoveFirst(tag, '#');
    CountAppend("#", rest, '#');
    if '#' in tag then ReinsertHash(tag, rest, FirstIndex(tag, '#')); "#" + rest
    else "#" + rest
  }

  lemma ReinsertHash(tag: string, rest: string, k: nat)
    requires k <= |rest| && rest[..k] + "#" + rest[k..] == tag
    ensures var d := "#" + rest;
      |d| == |tag| && d[1..k + 1] + "#" + d[k + 1..] == tag
  {
    var d := "#" + rest;
    assert d[1..k + 1] == rest[..k];
    assert d[k + 1..] == rest[k..];
  }

  /** A tag that already starts with `#` is drawn exactly as given, so
      drawing a drawn tag again changes nothing. */
  lemma DisplayKeepsLeadingHash(tag: string)
    requires |tag| > 0 && tag[0] == '#'
    ensures DisplayTag(tag) == tag
    ensures DisplayTag(DisplayTag(tag)) == DisplayTag(tag)
  {
    assert FirstIndex(tag, '#') == 0;
    assert tag == "#" + tag[1..];
  }

  /** A tag without `#` is drawn with one prepended. */
  lemma DisplayAddsMissingHash(tag: string)
    requires '#' !in tag
    ensures DisplayTag(tag) == "#" + tag
  {
  }

  /** `tags.join(' ')`. */
  function Join(tags: seq<string>): (s: string)
    ensures tags == [] ==> s == ""
    ensures |tags| == 1 ==> s == tags[0]
  {
    if tags == [] then ""
    else if |tags| == 1 then tags[0]
    else tags[0] + " " + Join(tags[1..])
  }

  /** JavaScript's `s.split(' ')`: the pieces between the spaces of `s`, so
      that an empty string gives one empty piece. The application never
      splits the copy text; this is a reference definition that exists only
      to state the copy-text round trip `SplitJoin`. */
  function Split(s: string): (parts: seq<string>)
    ensures |parts| > 0
    ensures forall i :: 0 <= i < |parts| ==> ' ' !in parts[i]
    decreases |s|
  {
    if ' ' in s then
      var k := FirstIndex(s, ' ');
      [s[..k]] + Split(s[k + 1..])
    else [s]
  }

  /** Splitting the copied text at its spaces gives back the tags, whenever
      there is at least one tag and no tag contains a space. */
  lemma {:induction false} SplitJoin(tags: seq<string>)
    requires |tags| > 0
    requires forall i :: 0 <= i < |tags| ==> ' ' !in tags[i]
    ensures Split(Join(tags)) == tags
    decreases |tags|
  {
    if |tags| > 1 {
      var rest := Join(tags[1..]);
      var s := tags[0] + " " + rest;
      assert s == Join(tags);
      assert FirstIndex(s, ' ') == |tags[0]| by {
        assert s[|tags[0]|] == ' ';
        assert s[..|tags[0]|] == tags[0];
      }
      assert s[..|tags[0]|] == tags[0];
      assert s[|tags[0]| + 1..] == rest;
      SplitJoin(tags[1..]);
      assert tags == [tags[0]] + tags[1..];
    }
  }
}

=== FILE: optional.dfy ===
/** The value-or-nothing wrapper used wherever the application holds a
    nullable value (`ContentOutput | null`) or an event may produce nothing. */
module Optional {

  datatype Option<+T> = None | Some(value: T) {

    /** Returns the wrapped value, or `default` when there is none. */
    function GetOr(default: T): (r: T)
      ensures Some? ==> r == value
      ensures None? ==> r == default
    {
      match this
      case Some(v) => v
      case None => default
    }
  }
}

=== FILE: text.dfy ===
/** Strings as the application tests them: JavaScript's `String.prototype.trim`
    and the "blank" test `!s.trim()` used to disable the topic step and to
    ignore empty chat messages. */
module Text {

  /** The code points `trim` removes: the WhiteSpace and LineTerminator
      productions of the ECMAScript grammar (TAB, VT, FF, SP, NBSP, ZWNBSP,
      the Unicode space separators, LF, CR, LS and PS). */
  predicate IsTrimmable(c: char) {
    || c == '\t' || c == '\n' || c == '\U{000B}' || c == '\U{000C}' || c == '\r'
    || c == ' ' || c == '\U{00A0}' || c == '\U{1680}'
    || ('\U{2000}' <= c <= '\U{200A}')
    || c == '\U{2028}' || c == '\U{2029}' || c == '\U{202F}' || c == '\U{205F}'
    || c == '\U{3000}' || c == '\U{FEFF}'
  }

  predicate AllTrimmable(s: string) {
    forall i :: 0 <= i < |s| ==> IsTrimmable(s[i])
  }

  /** `s` with its leading trimmable characters removed. */
  function TrimStart(s: string): (r: string)
    ensures |r| <= |s| && r == s[|s| - |r|..]
    ensures AllTrimmable(s[..|s| - |r|])
    ensures r == [] || !IsTrimmable(r[0])
    decreases |s|
  {
    if |s| > 0 && IsTrimmable(s[0]) then TrimStart(s[1..]) else s
  }

  /** `s` with its trailing trimmable characters removed. */
  function TrimEnd(s: string): (r: string)
    ensures |r| <= |s| && r == s[..|r|]
    ensures AllTrimmable(s[|r|..])
    ensures r == [] || !IsTrimmable(r[|r| - 1])
    decreases |s|
  {
    if |s| > 0 && IsTrimmable(s[|s| - 1]) then TrimEnd(s[..|s| - 1]) else s
  }

  lemma TrimSlice(s: string, t: string, r: string)
    requires |t| <= |s| && t == s[|s| - |t|..] && AllTrimmable(s[..|s| - |t|])
    requires |r| <= |t| && r == t[..|r|] && AllTrimmable(t[|r|..])
    ensures var i := |s| - |t|;
      && r == s[i..i + |r|] && AllTrimmable(s[..i]) && AllTrimmable(s[i + |r|..])
  {
  }

  /** JavaScript's `s.trim()`: the slice of `s` left after removing trimmable
      characters from both ends. */
  function Trim(s: string): (r: string)
    ensures |r| <= |s|
    ensures exists i :: 0 <= i <= |s| - |r| && r == s[i..i + |r|]
                        && AllTrimmable(s[..i]) && AllTrimmable(s[i + |r|..])
    ensures r == [] || (!IsTrimmable(r[0]) && !IsTrimmable(r[|r| - 1]))
  {
    var t := TrimStart(s);
    var r := TrimEnd(t);
    TrimSlice(s, t, r);
    r
  }

  /** The application's `!s.trim()`: nothing is left after trimming, that is,
      every character is trimmable (see `TrimEmptyIffBlank`). */
  predicate IsBlank(s: string) {
    AllTrimmable(s)
  }

  /** `s.trim()` is empty exactly when every character of `s` is whitespace
      or a line terminator. */
  lemma TrimEmptyIffBlank(s: string)
    ensures Trim(s) == [] <==> IsBlank(s)
  {
  }
}

=== FILE: wizard.dfy ===
/** The application's own state: the wizard step counter, the form, the
    generated plan and its loading flag, the result tab, and the drag state of
    the age selector mounted on the audience step. The generate request is an
    asynchronous call to an external service; its two outcomes arrive here as
    events. */
module Wizard {
  import opened Optional
  import opened Text
  import opened AgeSlider
  import opened ContentTypes

  const TotalSteps: int := 8
  /** The step that shows the generated plan. */
  const ResultStep: int := TotalSteps + 1
  const AudienceStep: int := 3

  datatype Tab = CalendarTab | CaptionsTab | HashtagsTab | IdeasTab

  datatype App = App(
    step: int,
    form: FormData,
    output: Option<ContentOutput>,
    loading: bool,
    tab: Tab,
    slider: Drag)

  const InitialForm: FormData :=
    FormData(Shop, "", Range(18, 45), "", "", Casual, ThreePerWeek, "", "", "")

  const Initial: App := App(0, InitialForm, None, false, CalendarTab, Idle)

  /** `handleNext`. */
  function Next(a: App): (r: App)
    ensures r.step == a.step + 1
    ensures r.(step := a.step) == a
  {
    a.(step := a.step + 1)
  }

  /** `handlePrev`. */
  function Prev(a: App): (r: App)
    ensures r.step == a.step - 1
    ensures r.(step := a.step) == a
  {
    a.(step := a.step - 1)
  }

  /** Back undoes next and next undoes back. */
  lemma PrevUndoesNext(a: App)
    ensures Prev(Next(a)) == a
    ensures Next(Prev(a)) == a
  {
  }

  /** A text field or the age range written in place; the step stays. */
  function Fill(a: App, e: FieldEdit): (r: App)
    ensures Current(r.form, e) == e
    ensures forall e' :: !SameField(e, e') ==> Current(r.form, e') == Current(a.form, e')
    ensures r.(form := a.form) == a
  {
    a.(form := Edit(a.form, e))
  }

  /** An option button: the chosen value is written and the wizard advances. */
  function Choose(a: App, e: FieldEdit): (r: App)
    ensures r.step == a.step + 1
    ensures Current(r.form, e) == e
    ensures forall e' :: !SameField(e, e') ==> Current(r.form, e') == Current(a.form, e')
    ensures r.(step := a.step, form := a.form) == a
  {
    Next(Fill(a, e))
  }

  /** The synchronous part of `handleGenerate`: the request is sent with the
      current form and the loading flag goes up. */
  function StartGenerate(a: App): (r: App)
    ensures r.loading
    ensures r.(loading := a.loading) == a
  {
    a.(loading := true)
  }

  /** The request answered with a plan: it is stored and the result step is
      shown; the form is kept. */
  function GenerateSucceeded(a: App, plan: ContentOutput): (r: App)
    ensures r.output == Some(plan) && r.step == ResultStep && !r.loading
    ensures r.form == a.form && r.tab == a.tab && r.slider == a.slider
  {
    a.(output := Some(plan), step := TotalSteps + 1, loading := false)
  }

  /** The request failed: only the loading flag drops; step and any earlier
      plan stay. */
  function GenerateFailed(a: App): (r: App)
    ensures !r.loading
    ensures r.(loading := a.loading) == a
  {
    a.(loading := false)
  }

  /** `setStep(0)`, from the restart button or the header logo: back to the
      welcome step with the form and the plan kept. */
  function Restart(a: App): (r: App)
    ensures r.step == 0
    ensures r.(step := a.step) == a
  {
    a.(step := 0)
  }

  function SelectTab(a: App, t: Tab): (r: App)
    ensures r.tab == t && r.(tab := a.tab) == a
  {
    a.(tab := t)
  }

  /** `handleCaptionChange`: the text of caption `index` is replaced. With no
      plan it returns early; an index outside the captions makes the handler
      throw before it stores anything. */
  function EditCaption(a: App, index: int, text: string): (r: App)
    ensures a.output.None? || !(0 <= index < |a.output.value.captions|) ==> r == a
    ensures a.output.Some? ==> r.output.Some?
    ensures a.output.Some? && 0 <= index < |a.output.value.captions| ==>
      var before := a.output.value.captions;
      var after := r.output.value.captions;
      && |after| == |before|
      && after[index] == before[index].(text := text)
      && (forall j :: 0 <= j < |before| && j != index ==> after[j] == before[j])
      && r.output.value.(captions := before) == a.output.value
    ensures r.(output := a.output) == a
  {
    match a.output
    case None => a
    case Some(plan) =>
      if 0 <= index < |plan.captions| then
        var captions := plan.captions[index := plan.captions[index].(text := text)];
        a.(output := Some(plan.(captions := captions)))
      else a
  }

  /** One age-selector event on the audience step: the drag state moves and
      a reported range is written into the form, exactly as the selector
      mounted in a consumer that stores its reports (`AgeSlider.Step`). */
  function Slide(a: App, ev: PointerEvent): (r: App)
    ensures Slider(r.slider, r.form.ageRange) == Step(Slider(a.slider, a.form.ageRange), ev)
    ensures ValidRange(a.form.ageRange) ==> ValidRange(r.form.ageRange)
    ensures r.form.(ageRange := a.form.ageRange) == a.form
    ensures r.(form := a.form, slider := a.slider) == a
  {
    var re := React(a.slider, a.form.ageRange, ev);
    var b := a.(slider := re.drag);
    match re.emitted
    case None => b
    case Some(range) => Fill(b, AgeRangeIs(range))
  }

  /** What the user or the network can do. */
  datatype Action =
    | StartPressed                  // step 0
    | OptionPicked(choice: FieldEdit) // steps 1, 4, 5, 6, 7
    | Typed(edit: FieldEdit)        // steps 2, 3, 8
    | NextPressed                   // steps 2 and 3
    | SliderInput(ev: PointerEvent) // step 3
    | GeneratePressed               // step 8
    | GenerationDone(plan: ContentOutput)
    | GenerationError
    | TabPicked(tab: Tab)           // result step
    | CaptionTyped(index: int, text: string)
    | RestartPressed
    | BackPressed
    | LogoPressed

  /** The option buttons each choice step offers. */
  predicate IsOptionOf(step: int, e: FieldEdit) {
    || (step == 1 && e.PageTypeIs?)
    || (step == 4 && e.EffectIs?)
    || (step == 5 && e.PersonaIs?)
    || (step == 6 && e.ToneIs?)
    || (step == 7 && e.FrequencyIs?)
  }

  /** The text inputs each step shows. */
  predicate IsInputOf(step: int, e: FieldEdit) {
    || (step == 2 && e.TopicIs?)
    || (step == 3 && (e.GenderIs? || e.ConcernIs?))
    || (step == 8 && e.FinalDetailsIs?)
  }

  /** The topic step's next button is disabled while the topic is blank. */
  predicate NextEnabled(a: App) {
    (a.step == 2 && !IsBlank(a.form.topic)) || a.step == AudienceStep
  }

  /** What holds in every reachable state: the step is one of 0..9, the
      result step always has a plan to show, a request is only pending before
      the result step, the age range is valid, and a drag is only under way on
      the audience step. */
  predicate Inv(a: App) {
    && 0 <= a.step <= ResultStep
    && (a.step == ResultStep ==> a.output.Some?)
    && (a.loading ==> a.step <= TotalSteps)
    && ValidRange(a.form.ageRange)
    && (a.slider.Dragging? ==> a.step == AudienceStep)
  }

  /** An action as the screen lets it through: a control that is not drawn,
      or is disabled, does nothing; a network outcome arrives only while a
      request is pending; leaving the audience step unmounts the age selector
      and so forgets its drag state. Every action keeps the invariant, and the
      step either stays, moves by one, or jumps to the welcome or the result
      step. */
  function Dispatch(a: App, act: Action): (r: App)
    ensures Inv(a) ==> Inv(r)
    ensures r.step in {a.step - 1, a.step, a.step + 1, 0, ResultStep}
    ensures act.BackPressed? ==> r.step == if 0 < a.step <= TotalSteps then a.step - 1 else a.step
    ensures act.GeneratePressed? && a.loading ==> r == a
    ensures act.GeneratePressed? && a.step == TotalSteps && !a.loading ==> r == StartGenerate(a)
    ensures act.NextPressed? && a.step == 2 ==> (r.step == AudienceStep <==> !IsBlank(a.form.topic))
  {
    var b := match act
      case StartPressed => if a.step == 0 then Next(a) else a
      case OptionPicked(e) => if IsOptionOf(a.step, e) then Choose(a, e) else a
      case Typed(e) => if IsInputOf(a.step, e) then Fill(a, e) else a
      case NextPressed => if NextEnabled(a) then Next(a) else a
      case SliderInput(ev) =>
        if a.step == AudienceStep && !(ev.Press? && a.loading) then Slide(a, ev) else a
      case GeneratePressed => if a.step == TotalSteps && !a.loading then StartGenerate(a) else a
      case GenerationDone(plan) => if a.loading then GenerateSucceeded(a, plan) else a
      case GenerationError => if a.loading then GenerateFailed(a) else a
      case TabPicked(t) => if a.step == ResultStep && a.output.Some? then SelectTab(a, t) else a
      case CaptionTyped(i, text) =>
        if a.step == ResultStep && a.tab == CaptionsTab then EditCaption(a, i, text) else a
      case RestartPressed => if a.step == ResultStep && a.output.Some? then Restart(a) else a
      case BackPressed => if 0 < a.step <= TotalSteps then Prev(a) else a
      case LogoPressed => Restart(a);
    if b.step != a.step then b.(slider := Idle) else b
  }

  /** The topic step cannot be left forward while the topic is blank. */
  lemma BlankTopicBlocksNext(a: App, act: Action)
    requires a.step == 2 && IsBlank(a.form.topic)
    ensures Dispatch(a, act).step != AudienceStep
  {
  }

  /** A sequence of actions, one `Dispatch` at a time. */
  function Run(a: App, acts: seq<Action>): (r: App)
    ensures Inv(a) ==> Inv(r)
    decreases |acts|
  {
    if acts == [] then a
    else Run(Dispatch(a, acts[0]), acts[1..])
  }

  /** Every state the application can reach from its start satisfies the
      invariant; in particular the step never goes negative. */
  lemma ReachableStatesAreValid(acts: seq<Action>)
    ensures Inv(Run(Initial, acts))
    ensures Run(Initial, acts).step >= 0
  {
  }
}
